=== FILE: README.md ===
# Release-notes generator: the decision logic in Dafny

This project models the pure core of a GitHub Action that writes release
notes between two tags (`src/releaseNotes.ts`). The hosting API is not
called: its answers are inputs (`Result` values), and every failure of the
commit or pull-request fetch degrades to an empty list, as the source's
`catch` blocks do. What is modelled:

- **Tag resolution**: the current tag is the given one, else the newest
  listed; an empty listing is an error. The previous tag is the given one,
  else the entry after the current tag in a newest-first listing. When the
  current tag is not listed, it is the newest listed tag. `"HEAD~100"` is the
  fallback when there is no such entry or at most one tag (`tags.dfy`).
- **Change fetching**: raw commits and pull requests are mapped into the
  generator's shape, and the pull requests are filtered to those merged after
  the previous tag's date and no later than the current tag's date
  (`fetch.dfy`).
- **Contributor extraction**: the distinct authors, commit authors first,
  with empty names and `"Unknown"` skipped (`contributors.dfy`).
- **Categorization**: first-match keyword rules. A commit's lower-cased
  message must start with `keyword:` or `keyword(`. A pull request is matched
  on its lower-cased labels by substring, and on its title by prefix only when
  no label matched. If nothing matches, the category is `"other"`
  (`categorize.dfy`).
- **Rendering input**: the stable group-by on category that feeds the
  template, and the one-line summary, with a parser that reads the three
  counts back (`render.dfy`). The groups live in a plain JavaScript object.
  A category named after an inherited `Object.prototype` property
  (`constructor`, `toString`, `__proto__`, …) already finds a non-array
  value there, so its `push` throws, and the whole run fails.
- **The pipeline** under its four flags (`pipeline.dfy`).

Shared helpers: `wrappers.dfy` (Option/Result), `seqs.dfy` (first
occurrence, first-seen de-duplication, prefix and substring), `text.dfy`
(ASCII lower-casing, decimal printing and parsing), `model.dfy` (records and
the built-in category map).

Behaviour of the code worth noting:
- Contributors exclude empty author names as well as `"Unknown"`.
- Only the label is lower-cased in the label pass, never the keyword. The
  same holds in the prefix passes. So a keyword with an upper-case letter
  never matches anything (`Categorize.UpperCaseKeywordNeverMatches`).
- The built-in category map is the one in `src/releaseNotes.ts`, whose
  category names are lower-case. It is used when the configuration has no
  `categories`. An empty configured map is kept as it is, because an empty
  object is truthy.
- A category named by the empty string is grouped under `"other"`, because
  `category || 'other'` treats `""` as missing.

## Model

| member | source | states |
|---|---|---|
| `Seqs.Distinct` | src/releaseNotes.ts:218-232 | The insertion-ordered set: no duplicates, exactly the input's elements, ordered by first occurrence |
| `Text.LowerProperties` | src/releaseNotes.ts:246 | Lower-casing keeps length, leaves no upper-case letter and is idempotent |
| `Text.ParseNatToString` | src/releaseNotes.ts:389 | A printed count reads back as the same number |
| `Categorize.FirstMatch` | src/releaseNotes.ts:249-258 | The category walk returns the first category whose keyword list matches; no earlier one matches; none means no category matches |
| `Categorize.CommitCategoryFirstMatch` | src/releaseNotes.ts:245-258 | A commit gets the name of the first category, in map order, with a keyword `k` such that the lower-cased message starts with `k:` or `k(` |
| `Categorize.CommitCategoryNoMatch` | src/releaseNotes.ts:260-262 | A commit that no category claims gets `"other"` |
| `Categorize.CommitCategoryStopsAtMatch` | src/releaseNotes.ts:249-258 | Once category i matches, the result comes from a category no later than i, and replacing everything after i changes nothing |
| `Categorize.PullRequestCategoryLabelFirst` | src/releaseNotes.ts:268-277 | A label match at the first matching category decides the pull request's category, whatever its title |
| `Categorize.PullRequestCategoryTitleFallback` | src/releaseNotes.ts:279-295 | With no label match, a pull request gets the category its title would get as a commit message, and its labels play no part |
| `Categorize.NoKeywordsMeansOther` | src/releaseNotes.ts:245-296 | An empty map, or one with only empty keyword lists, makes every commit and pull request `"other"` |
| `Categorize.UpperCaseKeywordNeverMatches` | src/releaseNotes.ts:246-270 | A keyword with an upper-case letter never prefixes a lower-cased message or title, and never occurs inside a lower-cased label |
| `Categorize.CategorizeChanges` | src/releaseNotes.ts:235-297 | Each commit and pull request gets the category of the rule set in force; lengths and all other fields are unchanged |
| `Contributors.Eligible` | src/releaseNotes.ts:221-229 | Keeps exactly the names that are neither empty nor `"Unknown"` |
| `Contributors.EligibleKeepsOrder` | src/releaseNotes.ts:220-230 | Skipping non-contributors does not reorder the first occurrences of the remaining names |
| `Contributors.GetContributors` | src/releaseNotes.ts:217-233 | No duplicates; exactly the non-empty, non-`"Unknown"` authors of commits and pull requests; ordered by first appearance, commit authors before pull-request authors |
| `Contributors.CommitAuthorsComeFirst` | src/releaseNotes.ts:220-230 | A contributor who authored a commit comes before every contributor who only authored pull requests |
| `Contributors.ContributorsExample` | src/releaseNotes.ts:217-233 | Commits by `"Unknown"` and `"Alice"` plus pull requests by `"Bob"` and `"Alice"` give exactly `["Alice", "Bob"]` |
| `Tags.PreviousTagName` | src/releaseNotes.ts:116-123 | A listing of at most one tag gives `"HEAD~100"`. An absent current tag gives `tags[0]`. A current tag at first position i gives `tags[i+1]`, or `"HEAD~100"` when i is the last index. The result is always the fallback or a listed name |
| `Tags.LatestTag` | src/releaseNotes.ts:90-106 | The newest tag is the first listed; an empty or failing listing is an error whose message starts with `Failed to get latest tag: ` |
| `Tags.PreviousTag` | src/releaseNotes.ts:108-127 | Fails exactly when the listing fails, with the `Failed to get previous tag: ` prefix; otherwise gives the entry `Tags.PreviousTagName` picks |
| `Tags.GivenOr` | src/releaseNotes.ts:50-51 | A non-empty tag given by the caller is used verbatim; otherwise the resolved one is used |
| `Tags.TagRefStripsOnce` | src/releaseNotes.ts:171 | The looked-up reference is `tags/<name>`, with one leading `refs/tags/` removed |
| `Tags.SingleTagFallsBack` | src/releaseNotes.ts:116-118 | A one-tag listing gives the fallback, not an error |
| `Fetch.FetchCommits` | src/releaseNotes.ts:136-154 | A failed comparison gives no commits. Otherwise there is one commit per compared commit, with sha, message and URL kept. The author becomes `"Unknown"` when missing or empty. The date becomes the clock reading taken for that commit when missing or empty. No category is set |
| `Fetch.KeepMerged` | src/releaseNotes.ts:197-202 | Keeps no more pull requests than it is given, each merged after the previous date and at or before the current date |
| `Fetch.KeepMergedPositions` | src/releaseNotes.ts:197-202 | The filter keeps exactly the positions whose merge time is set and in the window, in increasing order |
| `Fetch.FetchPullRequests` | src/releaseNotes.ts:164-214 | Any failed lookup gives no pull requests. Otherwise there is one pull request per kept record: number, title and URL preserved, author `"Unknown"` when missing or empty, merge time kept and inside the window, each label its name or `""`, no category |
| `Render.Select` | src/releaseNotes.ts:359-365 | A group holds only items with its key, and is empty for a key no item has |
| `Render.SelectMembers` | src/releaseNotes.ts:359-365 | An item is in the group for `k` exactly when it is an input item with key `k` |
| `Render.GroupBy` | src/releaseNotes.ts:356-373 | Group names are the distinct item keys in first-seen order; each group is exactly the items with that key, in input order. This is the result whenever no key is an inherited name |
| `Render.InsertKeeps` | src/releaseNotes.ts:361-364 | One `push` (creating the group if it is new) keeps the group-by properties |
| `Render.GroupSizesSum` | src/releaseNotes.ts:356-373 | The group sizes add up to the number of items |
| `Render.GroupIsPartition` | src/releaseNotes.ts:356-373 | Every item is in the group named by its category (or `"other"`) and in no other group; group names are distinct |
| `Render.SummaryReportsCounts` | src/releaseNotes.ts:388-390 | Reading the summary line back yields exactly the numbers of commits, pull requests and contributors |
| `ReleaseNotes.UncategorizedIsOther` | src/releaseNotes.ts:360 | When no item has a category, `"other"` is the only group name |
| `ReleaseNotes.ContributorsIgnoreCategories` | src/releaseNotes.ts:63-69 | Computing contributors before categorization gives the same list as after it, since only categories change |
| `Render.GroupOrThrow` | src/releaseNotes.ts:359-373 | The grouping loop fails, with the loop's `TypeError`, exactly when some item's group is an inherited object name; otherwise it is the stable group-by |
| `Render.GroupChanges` | src/releaseNotes.ts:356-373 | Grouping fails exactly when a commit or a pull request has an inherited group name. A commit failure is reported first. On success the groups are the two group-bys |
| `Render.OtherIsNotInherited` | src/releaseNotes.ts:360 | `"other"` is not an inherited name, so a change without a category never makes the grouping throw |
| `Categorize.CommitCategoryFromRules` | src/releaseNotes.ts:249-262 | A commit is categorized as `"other"` or as one of the rule names |
| `Categorize.PullRequestCategoryFromRules` | src/releaseNotes.ts:268-295 | A pull request is categorized as `"other"` or as one of the rule names |
| `ReleaseNotes.GroupedNotes` | src/releaseNotes.ts:356-389 | The group sizes add up to the list lengths. Without categories, `"other"` is the only group. The summary reads back as the three lengths |
| `ReleaseNotes.Assemble` | src/releaseNotes.ts:71-81 | Fails, with the grouping's `TypeError`, exactly when a change's group is an inherited name (commits first). Otherwise the groups partition the commit and pull-request lists, and the summary is the summary line for their sizes, which reads back as those sizes |
| `ReleaseNotes.InheritedCategoryThrows` | src/releaseNotes.ts:245-364 | With the single category `constructor: ["feat"]`, the commit `feat: x` is categorized `constructor`, and rendering it fails |
| `ReleaseNotes.DefaultCategoriesHaveNoInheritedNames` | src/releaseNotes.ts:236-243 | No built-in category is named after an inherited object property |
| `ReleaseNotes.CollectedGroupsSafely` | src/releaseNotes.ts:55-69 | With categorization off, or with rules that avoid inherited names, no collected change gets an inherited group name |
| `ReleaseNotes.CollectChanges` | src/releaseNotes.ts:55-69 | Each disabled flag gives an empty list; enabled ones give the fetched lists, contributors of the uncategorized lists, and categories from the rules in force |
| `ReleaseNotes.InheritedGroupKey` | src/releaseNotes.ts:360 | A group name is inherited exactly when the category is set to an inherited name; neither `"other"` nor `""` is one |
| `ReleaseNotes.CollectedThrowsExactly` | src/releaseNotes.ts:55-69 | The collected lists hold a change with an inherited group name exactly when categorization is on and an included, fetched change is categorized under an inherited name |
| `ReleaseNotes.InheritedRuleThrowsOnlyWhenUsed` | src/releaseNotes.ts:245-364 | With the single rule `constructor: ["feat"]`, a lone commit `fix: y` stays `"other"` and the run does not throw, while `feat: x` makes it throw |
| `ReleaseNotes.GenerateReleaseNotes` | src/releaseNotes.ts:46-88 | A tag resolution error aborts the run with its message. After tag resolution, the run fails exactly when categorization is on and some included, fetched change is categorized under an inherited object name. That failure is the grouping's `TypeError`. A successful run carries the resolved tags, the collected lists, their groupings and the summary line for their sizes, which reads back as those sizes |

## Left out

- The Octokit calls (`listTags`, `compareCommits`, `getRef`, `getCommit`, `pulls.list`) are network I/O. Their answers are inputs. Page sizes (1, 10, 100) and sort order are the API's business, and the model does not bound listing lengths.
- Handlebars compilation, the default template text, template errors and `process.env.GITHUB_REPOSITORY` are left out. They are a third-party engine whose output is not specified here. Only the grouping that feeds the template is modelled.
- `Text.LowerProperties`: lower-casing covers ASCII letters only. JavaScript's `toLowerCase` also maps non-ASCII letters, and it can change a string's length.
- `Render.GroupBy`: groups are kept in first-seen order. A JavaScript object lists integer-like keys (`"1"`, `"42"`) first, in ascending order; this is not modelled. The same holds for the order in which `Object.entries` walks the category map. Inherited property names (including `__proto__`) are modelled: they make the grouping throw (`Render.GroupOrThrow`).
- `Fetch.KeepMerged`: dates are integers. `new Date` parsing and invalid dates (which compare false) are not modelled. A null or empty `merged_at` is `None`.
- `Fetch.FetchCommits`: the author date and the clock readings stand for ISO strings. `new Date().toISOString()` is evaluated once for each commit that lacks a date; `clock(i)` is that reading for the commit at position i. An empty author date counts as missing.
- A category map is a sequence of pairs, so duplicate category names are possible. A JavaScript object cannot hold them. Non-array keyword values are not modelled.
- The `core.info` and `core.warning` logging, `src/config.ts` file loading, and `src/index.ts` input/output plumbing are I/O.
- Error values are their message strings; the `instanceof Error` test is not modelled. The grouping's `TypeError` text follows V8's wording; other engines word it differently.
- When the previous tag is the `"HEAD~100"` fallback, the lookup of `tags/HEAD~100` depends on the API. In practice it fails, and then the pull-request list is empty. The model takes the lookup result as an input.

=== FILE: categorize.dfy ===
/** Keyword-rule categorization of commits and pull requests
    (`categorizeChanges`). */
module Categorize {
  import opened Wrappers
  import opened Seqs
  import opened Text
  import opened Model

  /** The rules in force: the configured map, or the built-in one when the
      configuration has none (`config?.categories || {...}`). An empty
      configured map is kept as it is: an empty object is truthy. */
  function ActiveRules(configured: Option<Rules>): Rules {
    configured.GetOr(DefaultCategories)
  }

  /** `text` opens with `keyword:` or `keyword(`. */
  predicate PrefixMatch(text: string, keyword: string) {
    IsPrefix(keyword + ":", text) || IsPrefix(keyword + "(", text)
  }

  /** Some keyword of the list opens `text` (the commit and title rule). */
  predicate AnyPrefix(text: string, keywords: seq<string>) {
    exists k :: k in keywords && PrefixMatch(text, k)
  }

  /** Some keyword of the list occurs inside some lower-cased label (the label rule). */
  predicate AnyLabel(labels: seq<string>, keywords: seq<string>) {
    exists l, k :: l in labels && k in keywords && IsSubstring(k, Lower(l))
  }

  /** Walks the categories in order and stops at the first whose keyword list
      satisfies `matches`. */
  function FirstMatch(rules: Rules, matches: seq<string> -> bool): (r: Option<nat>)
    ensures r.Some? ==> r.value < |rules| && matches(rules[r.value].1)
    ensures r.Some? ==> forall j :: 0 <= j < r.value ==> !matches(rules[j].1)
    ensures r.None? ==> forall j :: 0 <= j < |rules| ==> !matches(rules[j].1)
  {
    if |rules| == 0 then None
    else if matches(rules[0].1) then Some(0)
    else
      match FirstMatch(rules[1..], matches)
      case Some(i) => Some(i + 1)
      case None => None
  }

  /** The prefix pass over already lower-cased `text`. */
  function PrefixCategory(text: string, rules: Rules): Option<string> {
    match FirstMatch(rules, keywords => AnyPrefix(text, keywords))
    case Some(i) => Some(rules[i].0)
    case None => None
  }

  /** The label pass. */
  function LabelCategory(labels: seq<string>, rules: Rules): Option<string> {
    match FirstMatch(rules, keywords => AnyLabel(labels, keywords))
    case Some(i) => Some(rules[i].0)
    case None => None
  }

  /** The category of a commit message. */
  function CommitCategory(message: string, rules: Rules): string {
    PrefixCategory(Lower(message), rules).GetOr(Other)
  }

  /** The category of a pull request: labels first, then the title. */
  function PullRequestCategory(pr: PullRequest, rules: Rules): string {
    match LabelCategory(pr.labels, rules)
    case Some(c) => c
    case None => PrefixCategory(Lower(pr.title), rules).GetOr(Other)
  }

  /** A commit is categorized as `"other"` or as one of the rule names. */
  lemma CommitCategoryFromRules(message: string, rules: Rules)
    ensures CommitCategory(message, rules) == Other || CommitCategory(message, rules) in Firsts(rules)
  {
    var f := FirstMatch(rules, keywords => AnyPrefix(Lower(message), keywords));
    if f.Some? {
      assert Firsts(rules)[f.value] == rules[f.value].0;
    }
  }

  /** A pull request is categorized as `"other"` or as one of the rule names. */
  lemma PullRequestCategoryFromRules(pr: PullRequest, rules: Rules)
    ensures PullRequestCategory(pr, rules) == Other || PullRequestCategory(pr, rules) in Firsts(rules)
  {
    var g := FirstMatch(rules, keywords => AnyLabel(pr.labels, keywords));
    if g.Some? {
      assert Firsts(rules)[g.value] == rules[g.value].0;
    } else {
      CommitCategoryFromRules(pr.title, rules);
    }
  }

  /** A commit takes the category of the first rule, in map order, with a
      keyword prefixing its lower-cased message. */
  lemma CommitCategoryFirstMatch(message: string, rules: Rules, i: nat)
    requires i < |rules| && AnyPrefix(Lower(message), rules[i].1)
    requires forall j :: 0 <= j < i ==> !AnyPrefix(Lower(message), rules[j].1)
    ensures CommitCategory(message, rules) == rules[i].0
  {
    var f := FirstMatch(rules, keywords => AnyPrefix(Lower(message), keywords));
    assert f.Some? && f.value == i;
  }

  /** A commit no rule claims is `"other"`. */
  lemma CommitCategoryNoMatch(message: string, rules: Rules)
    requires forall j :: 0 <= j < |rules| ==> !AnyPrefix(Lower(message), rules[j].1)
    ensures CommitCategory(message, rules) == Other
  {
    var f := FirstMatch(rules, keywords => AnyPrefix(Lower(message), keywords));
    assert f.None?;
  }

  /** Once the rule at `i` matches, the result comes from a rule no later than
      `i` and no rule after `i` is looked at: replacing them changes nothing. */
  lemma CommitCategoryStopsAtMatch(message: string, rules: Rules, i: nat, later: Rules)
    requires i < |rules| && AnyPrefix(Lower(message), rules[i].1)
    ensures exists f :: 0 <= f <= i && CommitCategory(message, rules) == rules[f].0
    ensures CommitCategory(message, rules[..i + 1] + later) == CommitCategory(message, rules)
  {
    var text := Lower(message);
    var m := keywords => AnyPrefix(text, keywords);
    var f := FirstMatch(rules, m);
    var rules' := rules[..i + 1] + later;
    var f' := FirstMatch(rules', m);
    assert rules'[i] == rules[i];
    assert forall j :: 0 <= j <= i ==> rules'[j] == rules[j];
    assert f.Some? && f.value <= i;
    assert f'.Some? && f'.value <= i;
    assert f.value == f'.value;
  }

  /** A pull request whose labels match takes the first label-matching
      category, whatever its title says. */
  lemma PullRequestCategoryLabelFirst(pr: PullRequest, rules: Rules, i: nat, title: string)
    requires i < |rules| && AnyLabel(pr.labels, rules[i].1)
    requires forall j :: 0 <= j < i ==> !AnyLabel(pr.labels, rules[j].1)
    ensures PullRequestCategory(pr, rules) == rules[i].0
    ensures PullRequestCategory(pr.(title := title), rules) == rules[i].0
  {
    var f := FirstMatch(rules, keywords => AnyLabel(pr.labels, keywords));
    assert f.Some? && f.value == i;
  }

  /** Without a label match, a pull request is categorized from its title
      exactly as a commit is from its message, and its labels play no part. */
  lemma PullRequestCategoryTitleFallback(pr: PullRequest, rules: Rules)
    requires forall j :: 0 <= j < |rules| ==> !AnyLabel(pr.labels, rules[j].1)
    ensures PullRequestCategory(pr, rules) == CommitCategory(pr.title, rules)
    ensures PullRequestCategory(pr, rules) == PullRequestCategory(pr.(labels := []), rules)
  {
    var f := FirstMatch(rules, keywords => AnyLabel(pr.labels, keywords));
    assert f.None?;
    var f' := FirstMatch(rules, keywords => AnyLabel([], keywords));
    assert f'.None?;
  }

  /** With no keywords at all (an empty map included) everything is `"other"`. */
  lemma NoKeywordsMeansOther(message: string, pr: PullRequest, rules: Rules)
    requires forall j :: 0 <= j < |rules| ==> rules[j].1 == []
    ensures CommitCategory(message, rules) == Other
    ensures PullRequestCategory(pr, rules) == Other
  {
    var f := FirstMatch(rules, keywords => AnyPrefix(Lower(message), keywords));
    assert f.None?;
    var g := FirstMatch(rules, keywords => AnyLabel(pr.labels, keywords));
    assert g.None?;
    var h := FirstMatch(rules, keywords => AnyPrefix(Lower(pr.title), keywords));
    assert h.None?;
  }

  /** Only the text is lower-cased, never the keyword: a keyword holding an
      upper-case letter matches no message, title or name. */
  lemma UpperCaseKeywordNeverMatches(keyword: string, text: string, name: string)
    requires HasUpper(keyword)
    ensures !PrefixMatch(Lower(text), keyword)
    ensures !IsSubstring(keyword, Lower(name))
  {
    var p :| 0 <= p < |keyword| && IsUpper(keyword[p]);
    LowerProperties(text);
    LowerProperties(name);
    assert (keyword + ":")[p] == keyword[p] && (keyword + "(")[p] == keyword[p];
  }

  /** Gives every commit the category of its message and changes nothing else. */
  method CategorizeCommits(commits: seq<Commit>, rules: Rules) returns (commits': seq<Commit>)
    ensures |commits'| == |commits|
    ensures forall i :: 0 <= i < |commits| ==>
      commits'[i] == commits[i].(category := Some(CommitCategory(commits[i].message, rules)))
  {
    commits' := [];
    var n := 0;
    while n < |commits|
      invariant n <= |commits| && |commits'| == n
      invariant forall i :: 0 <= i < n ==>
        commits'[i] == commits[i].(category := Some(CommitCategory(commits[i].message, rules)))
    {
      var c := commits[n];
      commits' := commits' + [c.(category := Some(CommitCategory(c.message, rules)))];
      n := n + 1;
    }
  }

  /** Gives every pull request the category of its labels or title and
      changes nothing else. */
  method CategorizePullRequests(pullRequests: seq<PullRequest>, rules: Rules) returns (pullRequests': seq<PullRequest>)
    ensures |pullRequests'| == |pullRequests|
    ensures forall i :: 0 <= i < |pullRequests| ==>
      pullRequests'[i] == pullRequests[i].(category := Some(PullRequestCategory(pullRequests[i], rules)))
  {
    pullRequests' := [];
    var n := 0;
    while n < |pullRequests|
      invariant n <= |pullRequests| && |pullRequests'| == n
      invariant forall i :: 0 <= i < n ==>
        pullRequests'[i] == pullRequests[i].(category := Some(PullRequestCategory(pullRequests[i], rules)))
    {
      var pr := pullRequests[n];
      pullRequests' := pullRequests' + [pr.(category := Some(PullRequestCategory(pr, rules)))];
      n := n + 1;
    }
  }

  /** Assigns every commit and pull request its category under the rules in
      force and changes nothing else about them. */
  method CategorizeChanges(commits: seq<Commit>, pullRequests: seq<PullRequest>, configured: Option<Rules>)
    returns (commits': seq<Commit>, pullRequests': seq<PullRequest>)
    ensures |commits'| == |commits|
    ensures forall i :: 0 <= i < |commits| ==>
      commits'[i].category == Some(CommitCategory(commits[i].message, ActiveRules(configured)))
    ensures forall i :: 0 <= i < |commits| ==> commits'[i].(category := commits[i].category) == commits[i]
    ensures |pullRequests'| == |pullRequests|
    ensures forall i :: 0 <= i < |pullRequests| ==>
      pullRequests'[i].category == Some(PullRequestCategory(pullRequests[i], ActiveRules(configured)))
    ensures forall i :: 0 <= i < |pullRequests| ==>
      pullRequests'[i].(category := pullRequests[i].category) == pullRequests[i]
  {
    var rules := ActiveRules(configured);
    commits' := CategorizeCommits(commits, rules);
    pullRequests' := CategorizePullRequests(pullRequests, rules);
  }
}

=== FILE: contributors.dfy ===
/** Contributor extraction (`getContributors`): the distinct human authors of
    the commits, then of the pull requests, in the order first seen. */
module Contributors {
  import opened Seqs
  import opened Model

  /** An author that counts as a contributor: neither empty nor the
      `"Unknown"` placeholder. */
  predicate IsContributor(name: string) {
    name != "" && name != UnknownAuthor
  }

  function CommitAuthors(commits: seq<Commit>): seq<string> {
    Map(commits, (c: Commit) => c.author)
  }

  function PullRequestAuthors(pullRequests: seq<PullRequest>): seq<string> {
    Map(pullRequests, (p: PullRequest) => p.author)
  }

  /** Every author in visiting order: commit authors, then pull-request authors. */
  function AuthorNames(commits: seq<Commit>, pullRequests: seq<PullRequest>): seq<string> {
    CommitAuthors(commits) + PullRequestAuthors(pullRequests)
  }

  /** The names that pass the contributor test, in their original order. */
  function Eligible(names: seq<string>): (r: seq<string>)
    ensures forall x :: x in r <==> x in names && IsContributor(x)
  {
    if |names| == 0 then []
    else
      var init := names[..|names| - 1];
      var last := names[|names| - 1];
      assert names == init + [last];
      Eligible(init) + (if IsContributor(last) then [last] else [])
  }

  /** Dropping non-contributors does not reorder the first occurrences of the
      names that remain. */
  lemma {:induction false} EligibleKeepsOrder(names: seq<string>, x: string, y: string)
    requires x in Eligible(names) && y in Eligible(names)
    ensures IndexOf(Eligible(names), x) < IndexOf(Eligible(names), y)
        <==> IndexOf(names, x) < IndexOf(names, y)
  {
    var init := names[..|names| - 1];
    var last := names[|names| - 1];
    assert names == init + [last];
    var e := Eligible(init);
    var tail := if IsContributor(last) then [last] else [];
    assert Eligible(names) == e + tail;
    if x in e && y in e {
      EligibleKeepsOrder(init, x, y);
      IndexOfPrefix(e, tail, x);
      IndexOfPrefix(e, tail, y);
      IndexOfPrefix(init, [last], x);
      IndexOfPrefix(init, [last], y);
    } else if x in e {
      assert y !in init && y == last;
      IndexOfUnique(names, y, |init|);
      IndexOfUnique(Eligible(names), y, |e|);
      IndexOfPrefix(e, tail, x);
      IndexOfPrefix(init, [last], x);
    } else if y in e {
      assert x !in init && x == last;
      IndexOfUnique(names, x, |init|);
      IndexOfUnique(Eligible(names), x, |e|);
      IndexOfPrefix(e, tail, y);
      IndexOfPrefix(init, [last], y);
    }
  }

  /** The contributor list: no duplicates, exactly the eligible authors, and
      ordered by where each author first appears among all authors. */
  function GetContributors(commits: seq<Commit>, pullRequests: seq<PullRequest>): (r: seq<string>)
    ensures NoDup(r)
    ensures forall x :: x in r <==> x in AuthorNames(commits, pullRequests) && IsContributor(x)
    ensures forall a, b :: 0 <= a < b < |r| ==>
      IndexOf(AuthorNames(commits, pullRequests), r[a]) < IndexOf(AuthorNames(commits, pullRequests), r[b])
  {
    var names := AuthorNames(commits, pullRequests);
    var e := Eligible(names);
    var d := Distinct(e);
    forall a, b | 0 <= a < b < |d|
      ensures IndexOf(names, d[a]) < IndexOf(names, d[b])
    {
      EligibleKeepsOrder(names, d[a], d[b]);
    }
    d
  }

  /** Commit authors come before authors seen only on pull requests. */
  lemma CommitAuthorsComeFirst(commits: seq<Commit>, pullRequests: seq<PullRequest>, a: nat, b: nat)
    requires a < |GetContributors(commits, pullRequests)| && b < |GetContributors(commits, pullRequests)|
    requires GetContributors(commits, pullRequests)[a] in CommitAuthors(commits)
    requires GetContributors(commits, pullRequests)[b] !in CommitAuthors(commits)
    ensures a < b
  {
    var r := GetContributors(commits, pullRequests);
    var names := AuthorNames(commits, pullRequests);
    IndexOfPrefix(CommitAuthors(commits), PullRequestAuthors(pullRequests), r[a]);
    var ib := IndexOf(names, r[b]);
    assert ib >= |CommitAuthors(commits)|;
  }

  /** Commits by "Unknown" and "Alice" with pull requests by "Bob" and "Alice"
      give exactly "Alice", "Bob". */
  lemma ContributorsExample(c1: Commit, c2: Commit, p1: PullRequest, p2: PullRequest)
    requires c1.author == "Unknown" && c2.author == "Alice"
    requires p1.author == "Bob" && p2.author == "Alice"
    ensures GetContributors([c1, c2], [p1, p2]) == ["Alice", "Bob"]
  {
    var names := ["Unknown", "Alice", "Bob", "Alice"];
    assert AuthorNames([c1, c2], [p1, p2]) == names;
    assert names[..3] == ["Unknown", "Alice", "Bob"];
    assert names[..3][..2] == ["Unknown", "Alice"];
    assert names[..3][..2][..1] == ["Unknown"];
    assert names[..3][..2][..1][..0] == [];
    assert Eligible(["Unknown"]) == [];
    assert Eligible(["Unknown", "Alice"]) == ["Alice"];
    assert Eligible(["Unknown", "Alice", "Bob"]) == ["Alice", "Bob"];
    var e := Eligible(names);
    assert e == ["Alice", "Bob", "Alice"];
    assert e[..2] == ["Alice", "Bob"];
    assert e[..2][..1] == ["Alice"];
    assert e[..2][..1][..0] == [];
    assert Distinct(["Alice"]) == ["Alice"];
    assert Distinct(["Alice", "Bob"]) == ["Alice", "Bob"];
  }
}

=== FILE: fetch.dfy ===
/** The change fetcher (`getCommitsBetweenTags`, `getPullRequestsBetweenTags`)
    once the hosting API has answered: mapping raw records into the
    generator's shape and keeping the pull requests merged between the two
    tags. Every failing API call degrades to an empty list. */
module Fetch {
  import opened Wrappers
  import opened Model

  /** One compared commit in the generator's shape; `now` is the clock
      reading used when the author date is missing. */
  function ToCommit(raw: RawCommit, now: int): Commit {
    Commit(raw.sha, raw.message, OrElse(raw.authorName, UnknownAuthor),
           raw.authorDate.GetOr(now), raw.url, None)
  }

  /** The commits of a comparison, in the order the API gave them; nothing when
      the comparison failed. The clock is read once per commit: `clock(i)` is
      the reading taken while mapping the commit at position `i`. */
  function FetchCommits(comparison: Result<seq<RawCommit>>, clock: nat -> int): (r: seq<Commit>)
    ensures comparison.Failure? ==> r == []
    ensures comparison.Success? ==> |r| == |comparison.value|
    ensures comparison.Success? ==> forall i :: 0 <= i < |r| ==>
      var raw := comparison.value[i];
      && r[i].sha == raw.sha && r[i].message == raw.message && r[i].url == raw.url
      && r[i].author != ""
      && (raw.authorName.Some? && raw.authorName.value != "" ==> r[i].author == raw.authorName.value)
      && (raw.authorName.None? || raw.authorName.value == "" ==> r[i].author == UnknownAuthor)
      && (raw.authorDate.Some? ==> r[i].date == raw.authorDate.value)
      && (raw.authorDate.None? ==> r[i].date == clock(i))
      && r[i].category.None?
  {
    match comparison
    case Failure(_) => []
    case Success(raws) =>
      var r := seq(|raws|, i requires 0 <= i < |raws| => ToCommit(raws[i], clock(i)));
      assert forall i :: 0 <= i < |r| ==> r[i] == ToCommit(raws[i], clock(i));
      r
  }

  /** Merged strictly after the previous tag's date and no later than the
      current tag's date. */
  predicate MergedBetween(pr: RawPullRequest, previous: int, current: int) {
    pr.mergedAt.Some? && previous < pr.mergedAt.value <= current
  }

  /** The pull requests merged between the two dates, in listing order. */
  function KeepMerged(prs: seq<RawPullRequest>, previous: int, current: int): (r: seq<RawPullRequest>)
    ensures |r| <= |prs|
    ensures forall k :: 0 <= k < |r| ==> MergedBetween(r[k], previous, current)
  {
    if |prs| == 0 then []
    else
      var init := prs[..|prs| - 1];
      var last := prs[|prs| - 1];
      assert prs == init + [last];
      KeepMerged(init, previous, current) + (if MergedBetween(last, previous, current) then [last] else [])
  }

  /** One step of the filter: the last pull request is kept after the others
      exactly when it was merged in the window. */
  lemma KeepMergedSnoc(prs: seq<RawPullRequest>, previous: int, current: int)
    requires |prs| > 0
    ensures KeepMerged(prs, previous, current)
      == KeepMerged(prs[..|prs| - 1], previous, current)
         + (if MergedBetween(prs[|prs| - 1], previous, current) then [prs[|prs| - 1]] else [])
  {
  }

  /** The filter keeps exactly the pull requests merged in the window, each
      taken from its original position and in the original order: `idx` lists
      the positions it keeps. */
  lemma {:induction false} KeepMergedPositions(prs: seq<RawPullRequest>, previous: int, current: int)
    returns (idx: seq<nat>)
    ensures |idx| == |KeepMerged(prs, previous, current)|
    ensures forall k :: 0 <= k < |idx| ==>
      idx[k] < |prs| && KeepMerged(prs, previous, current)[k] == prs[idx[k]]
    ensures forall k, l :: 0 <= k < l < |idx| ==> idx[k] < idx[l]
    ensures forall i :: 0 <= i < |prs| ==> (MergedBetween(prs[i], previous, current) <==> i in idx)
  {
    if |prs| == 0 {
      idx := [];
    } else {
      var n := |prs| - 1;
      var init := prs[..n];
      var rest := KeepMergedPositions(init, previous, current);
      var keptInit := KeepMerged(init, previous, current);
      var kept := KeepMerged(prs, previous, current);
      var keepLast := MergedBetween(prs[n], previous, current);
      KeepMergedSnoc(prs, previous, current);
      idx := rest + (if keepLast then [n] else []);
      assert |kept| == |idx|;
      forall k | 0 <= k < |idx|
        ensures idx[k] < |prs| && kept[k] == prs[idx[k]]
      {
        if k < |rest| {
          assert kept[k] == keptInit[k] == init[rest[k]];
        }
      }
      forall i | 0 <= i < |prs|
        ensures MergedBetween(prs[i], previous, current) <==> i in idx
      {
        if i < n {
          assert prs[i] == init[i];
          assert i in idx <==> i in rest;
        } else {
          assert i in idx <==> keepLast;
        }
      }
    }
  }

  /** One kept pull request in the generator's shape. */
  function ToPullRequest(raw: RawPullRequest): PullRequest {
    PullRequest(raw.number, raw.title, OrElse(raw.login, UnknownAuthor), raw.url, raw.mergedAt,
                seq(|raw.labels|, i requires 0 <= i < |raw.labels| => raw.labels[i].GetOr("")), None)
  }

  /** The pull requests merged between two tags, given the two tags' commit
      dates and the closed-PR listing; nothing if any of the three lookups failed. */
  function FetchPullRequests(previousDate: Result<int>, currentDate: Result<int>,
                             listing: Result<seq<RawPullRequest>>): (r: seq<PullRequest>)
    ensures previousDate.Failure? || currentDate.Failure? || listing.Failure? ==> r == []
    ensures previousDate.Success? && currentDate.Success? && listing.Success? ==>
      var kept := KeepMerged(listing.value, previousDate.value, currentDate.value);
      && |r| == |kept| <= |listing.value|
      && forall k :: 0 <= k < |r| ==>
        && r[k].number == kept[k].number && r[k].title == kept[k].title && r[k].url == kept[k].url
        && r[k].author == OrElse(kept[k].login, UnknownAuthor) && r[k].author != ""
        && r[k].mergedAt == kept[k].mergedAt
        && r[k].mergedAt.Some? && previousDate.value < r[k].mergedAt.value <= currentDate.value
        && |r[k].labels| == |kept[k].labels|
        && (forall j :: 0 <= j < |r[k].labels| ==> r[k].labels[j] == kept[k].labels[j].GetOr(""))
        && r[k].category.None?
  {
    if previousDate.Failure? || currentDate.Failure? || listing.Failure? then []
    else
      var kept := KeepMerged(listing.value, previousDate.value, currentDate.value);
      seq(|kept|, k requires 0 <= k < |kept| => ToPullRequest(kept[k]))
  }
}

=== FILE: model.dfy ===
/** The records the release-notes generator works on, as they look once the
    hosting API has answered (`Raw…`) and once mapped into the generator's own
    shape (`Commit`, `PullRequest`). Timestamps are abstracted to integers. */
module Model {
  import opened Wrappers

  /** A category map: category names with their keywords, in the order
      `Object.entries` walks the configured object. */
  type Rules = seq<(string, seq<string>)>

  /** The category given to a change no rule claims. */
  const Other: string := "other"

  /** The author given to a change whose author is missing. */
  const UnknownAuthor: string := "Unknown"

  /** The categories used when the configuration supplies none. */
  const DefaultCategories: Rules := [
    ("feature", ["feature", "feat", "enhancement"]),
    ("bug", ["bug", "fix", "bugfix"]),
    ("documentation", ["docs", "documentation"]),
    ("chore", ["chore", "build", "ci"]),
    ("refactor", ["refactor"]),
    ("test", ["test", "tests"])
  ]

  /** A tag as listed by the hosting API, newest first. */
  datatype Tag = Tag(name: string, commitSha: string)

  /** A commit of the comparison between two tags, before mapping.
      `authorName` and `authorDate` are `None` when the API reports none or an
      empty one, since `||` treats the empty string like a missing value. */
  datatype RawCommit = RawCommit(
    sha: string,
    message: string,
    authorName: Option<string>,
    authorDate: Option<int>,
    url: string)

  /** A closed pull request as listed by the hosting API, before mapping.
      `mergedAt` is `None` when the API reports no (or an empty) merge time;
      a label is `None` when it carries no name. */
  datatype RawPullRequest = RawPullRequest(
    number: int,
    title: string,
    login: Option<string>,
    url: string,
    mergedAt: Option<int>,
    labels: seq<Option<string>>)

  /** A commit in the generator's shape; `category` is absent until categorized. */
  datatype Commit = Commit(
    sha: string,
    message: string,
    author: string,
    date: int,
    url: string,
    category: Option<string>)

  /** A merged pull request in the generator's shape. */
  datatype PullRequest = PullRequest(
    number: int,
    title: string,
    author: string,
    url: string,
    mergedAt: Option<int>,
    labels: seq<string>,
    category: Option<string>)

  /** JavaScript's `value || fallback` on an optional string: the empty string
      is falsy like `undefined`. */
  function OrElse(value: Option<string>, fallback: string): string {
    if value.Some? && value.value != "" then value.value else fallback
  }
}

=== FILE: pipeline.dfy ===
/** The pipeline of `generateReleaseNotes`: resolve the two tags, fetch what
    the flags ask for, extract contributors, categorize, group and summarize.
    The hosting API is a record of its answers; the template rendering that
    would follow is not part of this model. */
module ReleaseNotes {
  import opened Wrappers
  import opened Model
  import opened Tags
  import opened Fetch
  import opened Contributors
  import opened Categorize
  import opened Render
  import opened Text
  import opened Seqs

  datatype Options = Options(
    tag: Option<string>,
    previousTag: Option<string>,
    categories: Option<Rules>,
    includeCommits: bool,
    includePullRequests: bool,
    includeContributors: bool,
    categorize: bool)

  /** What the hosting API answers: the newest tag (a listing of at most one),
      the ten newest tags, the comparison of two tags, the commit date behind
      a tag reference, the closed pull requests, and the clock (its reading while
      mapping the i-th commit). */
  datatype Api = Api(
    latestTags: Result<seq<Tag>>,
    recentTags: Result<seq<Tag>>,
    compare: (string, string) -> Result<seq<RawCommit>>,
    refDate: string -> Result<int>,
    closedPullRequests: Result<seq<RawPullRequest>>,
    clock: nat -> int)

  /** Everything the template would be rendered from, plus the summary. */
  datatype Notes = Notes(
    currentTag: string,
    previousTag: string,
    commits: seq<Commit>,
    pullRequests: seq<PullRequest>,
    contributors: seq<string>,
    commitsByCategory: Groups<Commit>,
    pullRequestsByCategory: Groups<PullRequest>,
    summary: string)

  /** The current tag: the one given, else the newest listed. */
  function CurrentTag(options: Options, api: Api): Result<string> {
    GivenOr(options.tag, LatestTag(api.latestTags))
  }

  /** The previous tag: the one given, else the one after `current` in the listing. */
  function PreviousTagOf(options: Options, api: Api, current: string): Result<string> {
    GivenOr(options.previousTag, PreviousTag(api.recentTags, current))
  }

  /** Only `"other"` names a group when nothing was categorized. */
  lemma UncategorizedIsOther<T>(items: seq<T>, key: T -> string)
    ensures (forall i :: 0 <= i < |items| ==> key(items[i]) == Other) ==>
      forall j :: 0 <= j < |GroupBy(items, key)| ==> GroupBy(items, key)[j].0 == Other
  {
    var g := GroupBy(items, key);
    if forall i :: 0 <= i < |items| ==> key(items[i]) == Other {
      forall j | 0 <= j < |g|
        ensures g[j].0 == Other
      {
        assert Firsts(g)[j] == g[j].0;
        assert g[j].0 in Map(items, key);
      }
    }
  }

  /** The commit groups cover the commits, and are all `"other"` when no
      commit is categorized. */
  lemma GroupedCommits(commits: seq<Commit>)
    ensures SumSizes(CommitsByCategory(commits)) == |commits|
    ensures (forall i :: 0 <= i < |commits| ==> commits[i].category.None?) ==>
      forall j :: 0 <= j < |CommitsByCategory(commits)| ==> CommitsByCategory(commits)[j].0 == Other
  {
    var key := (c: Commit) => GroupKey(c.category);
    GroupSizesSum(commits, key);
    UncategorizedIsOther(commits, key);
  }

  /** The pull-request groups cover the pull requests, and are all `"other"`
      when no pull request is categorized. */
  lemma GroupedPullRequests(pullRequests: seq<PullRequest>)
    ensures SumSizes(PullRequestsByCategory(pullRequests)) == |pullRequests|
    ensures (forall i :: 0 <= i < |pullRequests| ==> pullRequests[i].category.None?) ==>
      forall j :: 0 <= j < |PullRequestsByCategory(pullRequests)| ==> PullRequestsByCategory(pullRequests)[j].0 == Other
  {
    var key := (p: PullRequest) => GroupKey(p.category);
    GroupSizesSum(pullRequests, key);
    UncategorizedIsOther(pullRequests, key);
  }

  /** What the groups and the summary of the final lists satisfy. */
  lemma GroupedNotes(commits: seq<Commit>, pullRequests: seq<PullRequest>, contributors: seq<string>)
    ensures SumSizes(CommitsByCategory(commits)) == |commits|
    ensures SumSizes(PullRequestsByCategory(pullRequests)) == |pullRequests|
    ensures (forall i :: 0 <= i < |commits| ==> commits[i].category.None?) ==>
      forall j :: 0 <= j < |CommitsByCategory(commits)| ==> CommitsByCategory(commits)[j].0 == Other
    ensures (forall i :: 0 <= i < |pullRequests| ==> pullRequests[i].category.None?) ==>
      forall j :: 0 <= j < |PullRequestsByCategory(pullRequests)| ==> PullRequestsByCategory(pullRequests)[j].0 == Other
    ensures ParseSummary(GenerateSummary(commits, pullRequests, contributors))
      == Some((|commits|, |pullRequests|, |contributors|))
  {
    GroupedCommits(commits);
    GroupedPullRequests(pullRequests);
    SummaryReportsCounts(commits, pullRequests, contributors);
  }

  /** The template data and summary built from the final lists. Grouping
      throws exactly when some change's group is an inherited object name,
      commits first; otherwise the groups partition the lists and the summary
      reports their sizes. */
  function Assemble(current: string, previous: string, commits: seq<Commit>,
                    pullRequests: seq<PullRequest>, contributors: seq<string>): (r: Result<Notes>)
    ensures r.Failure? <==>
      (exists i :: 0 <= i < |commits| && Inherited(GroupKey(commits[i].category))) ||
      (exists i :: 0 <= i < |pullRequests| && Inherited(GroupKey(pullRequests[i].category)))
    ensures (exists i :: 0 <= i < |commits| && Inherited(GroupKey(commits[i].category))) ==>
      r == Failure(CommitPushError)
    ensures r.Failure? ==> r.error == CommitPushError || r.error == PullRequestPushError
    ensures r.Success? ==>
      var n := r.value;
      && n.currentTag == current && n.previousTag == previous
      && n.commits == commits && n.pullRequests == pullRequests && n.contributors == contributors
      && n.commitsByCategory == CommitsByCategory(commits)
      && n.pullRequestsByCategory == PullRequestsByCategory(pullRequests)
      && SumSizes(n.commitsByCategory) == |commits|
      && SumSizes(n.pullRequestsByCategory) == |pullRequests|
      && ((forall i :: 0 <= i < |commits| ==> commits[i].category.None?) ==>
            forall j :: 0 <= j < |n.commitsByCategory| ==> n.commitsByCategory[j].0 == Other)
      && ((forall i :: 0 <= i < |pullRequests| ==> pullRequests[i].category.None?) ==>
            forall j :: 0 <= j < |n.pullRequestsByCategory| ==> n.pullRequestsByCategory[j].0 == Other)
      && n.summary == GenerateSummary(commits, pullRequests, contributors)
      && ParseSummary(n.summary) == Some((|commits|, |pullRequests|, |contributors|))
  {
    match GroupChanges(commits, pullRequests)
    case Failure(e) => Failure(e)
    case Success(groups) =>
      GroupedNotes(commits, pullRequests, contributors);
      Success(Notes(current, previous, commits, pullRequests, contributors,
                    groups.0, groups.1, GenerateSummary(commits, pullRequests, contributors)))
  }

  /** A category named `constructor` throws at the first `push`: the rendering,
      and with it the whole run, fails. */
  lemma InheritedCategoryThrows(c: Commit, current: string, previous: string)
    requires c.message == "feat: x"
    ensures CommitCategory(c.message, [("constructor", ["feat"])]) == "constructor"
    ensures Assemble(current, previous, [c.(category := Some("constructor"))], [], []) == Failure(CommitPushError)
  {
    var rules: Rules := [("constructor", ["feat"])];
    LowerProperties(c.message);
    assert !HasUpper(c.message) by {
      assert forall p :: 0 <= p < |c.message| ==> !IsUpper(c.message[p]);
    }
    assert PrefixMatch(Lower(c.message), "feat");
    CommitCategoryFirstMatch(c.message, rules, 0);
    var commits := [c.(category := Some("constructor"))];
    assert Inherited(GroupKey(commits[0].category));
  }

  /** No rule is named after an inherited object property. */
  predicate NoInheritedNames(rules: Rules) {
    forall n :: n in Firsts(rules) ==> !Inherited(n)
  }

  /** The built-in categories group without throwing. */
  lemma DefaultCategoriesHaveNoInheritedNames()
    ensures NoInheritedNames(DefaultCategories)
  {
    assert Firsts(DefaultCategories) == ["feature", "bug", "documentation", "chore", "refactor", "test"];
    forall n | n in Firsts(DefaultCategories)
      ensures !Inherited(n)
    {
      assert forall j :: 0 <= j < |InheritedNames| ==> InheritedNames[j][0] != n[0] || InheritedNames[j] != n;
    }
  }

  /** Changing only categories leaves the contributor list as it was. */
  lemma ContributorsIgnoreCategories(commits: seq<Commit>, pullRequests: seq<PullRequest>,
                                     commits': seq<Commit>, pullRequests': seq<PullRequest>)
    requires |commits'| == |commits| && |pullRequests'| == |pullRequests|
    requires forall i :: 0 <= i < |commits| ==> commits'[i].author == commits[i].author
    requires forall i :: 0 <= i < |pullRequests| ==> pullRequests'[i].author == pullRequests[i].author
    ensures GetContributors(commits', pullRequests') == GetContributors(commits, pullRequests)
  {
    assert CommitAuthors(commits') == CommitAuthors(commits);
    assert PullRequestAuthors(pullRequests') == PullRequestAuthors(pullRequests);
  }

  /** The lists handed to the renderer, as the flags shape them: the fetched
      commits and pull requests (or none), the contributors taken before
      categorization (or none), and every category set by the rules in force
      (or left unset). */
  ghost predicate AsCollected(options: Options, api: Api, previous: string, current: string,
                              commits: seq<Commit>, pullRequests: seq<PullRequest>, contributors: seq<string>)
  {
    var fetchedCommits := FetchCommits(api.compare(previous, current), api.clock);
    var fetchedPullRequests := FetchPullRequests(api.refDate(TagRef(previous)), api.refDate(TagRef(current)),
                                                 api.closedPullRequests);
    var rules := ActiveRules(options.categories);
    && |commits| == (if options.includeCommits then |fetchedCommits| else 0)
    && |pullRequests| == (if options.includePullRequests then |fetchedPullRequests| else 0)
    && contributors == (if options.includeContributors then GetContributors(commits, pullRequests) else [])
    && (forall i :: 0 <= i < |commits| ==>
          && commits[i].(category := None) == fetchedCommits[i]
          && commits[i].category
             == (if options.categorize then Some(CommitCategory(fetchedCommits[i].message, rules)) else None))
    && (forall i :: 0 <= i < |pullRequests| ==>
          && pullRequests[i].(category := None) == fetchedPullRequests[i]
          && pullRequests[i].category
             == (if options.categorize then Some(PullRequestCategory(fetchedPullRequests[i], rules)) else None))
  }

  /** Fetches, extracts contributors and categorizes, as the flags ask. */
  method CollectChanges(options: Options, api: Api, previous: string, current: string)
    returns (commits: seq<Commit>, pullRequests: seq<PullRequest>, contributors: seq<string>)
    ensures AsCollected(options, api, previous, current, commits, pullRequests, contributors)
  {
    var fetchedCommits := FetchCommits(api.compare(previous, current), api.clock);
    var fetchedPullRequests := FetchPullRequests(api.refDate(TagRef(previous)), api.refDate(TagRef(current)),
                                                 api.closedPullRequests);
    commits := if options.includeCommits then fetchedCommits else [];
    pullRequests := if options.includePullRequests then fetchedPullRequests else [];
    contributors := if options.includeContributors then GetContributors(commits, pullRequests) else [];
    if options.categorize {
      var categorizedCommits, categorizedPullRequests := CategorizeChanges(commits, pullRequests, options.categories);
      ContributorsIgnoreCategories(commits, pullRequests, categorizedCommits, categorizedPullRequests);
      commits, pullRequests := categorizedCommits, categorizedPullRequests;
    }
  }

  /** With categorization off, or with rules that avoid inherited names, no
      collected change is grouped under an inherited name. */
  lemma CollectedGroupsSafely(options: Options, api: Api, previous: string, current: string,
                              commits: seq<Commit>, pullRequests: seq<PullRequest>, contributors: seq<string>)
    requires AsCollected(options, api, previous, current, commits, pullRequests, contributors)
    requires !options.categorize || NoInheritedNames(ActiveRules(options.categories))
    ensures forall i :: 0 <= i < |commits| ==> !Inherited(GroupKey(commits[i].category))
    ensures forall i :: 0 <= i < |pullRequests| ==> !Inherited(GroupKey(pullRequests[i].category))
  {
    var rules := ActiveRules(options.categories);
    var fetchedCommits := FetchCommits(api.compare(previous, current), api.clock);
    var fetchedPullRequests := FetchPullRequests(api.refDate(TagRef(previous)), api.refDate(TagRef(current)),
                                                 api.closedPullRequests);
    OtherIsNotInherited();
    forall i | 0 <= i < |commits|
      ensures !Inherited(GroupKey(commits[i].category))
    {
      if options.categorize {
        CommitCategoryFromRules(fetchedCommits[i].message, rules);
      }
    }
    forall i | 0 <= i < |pullRequests|
      ensures !Inherited(GroupKey(pullRequests[i].category))
    {
      if options.categorize {
        PullRequestCategoryFromRules(fetchedPullRequests[i], rules);
      }
    }
  }

  /** Whether rendering throws for the changes the flags collect: only when
      categorization is on and some fetched change is categorized under an
      inherited object name. */
  predicate ThrowsOnGrouping(options: Options, api: Api, previous: string, current: string) {
    var fetchedCommits := FetchCommits(api.compare(previous, current), api.clock);
    var fetchedPullRequests := FetchPullRequests(api.refDate(TagRef(previous)), api.refDate(TagRef(current)),
                                                 api.closedPullRequests);
    var rules := ActiveRules(options.categories);
    && options.categorize
    && (|| (options.includeCommits &&
            exists i :: 0 <= i < |fetchedCommits| && Inherited(CommitCategory(fetchedCommits[i].message, rules)))
        || (options.includePullRequests &&
            exists i :: 0 <= i < |fetchedPullRequests| && Inherited(PullRequestCategory(fetchedPullRequests[i], rules))))
  }

  /** A group name is inherited exactly when the category is set to an
      inherited name: neither `"other"` nor `""` is one. */
  lemma InheritedGroupKey(category: Option<string>)
    ensures Inherited(GroupKey(category)) <==> category.Some? && Inherited(category.value)
  {
    OtherIsNotInherited();
    assert !Inherited("") by {
      assert forall j :: 0 <= j < |InheritedNames| ==> |InheritedNames[j]| > 0;
    }
  }

  /** The collected lists hold a change with an inherited group name exactly
      when the run throws on grouping. */
  lemma CollectedThrowsExactly(options: Options, api: Api, previous: string, current: string,
                               commits: seq<Commit>, pullRequests: seq<PullRequest>, contributors: seq<string>)
    requires AsCollected(options, api, previous, current, commits, pullRequests, contributors)
    ensures ((exists i :: 0 <= i < |commits| && Inherited(GroupKey(commits[i].category))) ||
             (exists i :: 0 <= i < |pullRequests| && Inherited(GroupKey(pullRequests[i].category))))
            <==> ThrowsOnGrouping(options, api, previous, current)
  {
    var rules := ActiveRules(options.categories);
    var fetchedCommits := FetchCommits(api.compare(previous, current), api.clock);
    var fetchedPullRequests := FetchPullRequests(api.refDate(TagRef(previous)), api.refDate(TagRef(current)),
                                                 api.closedPullRequests);
    forall i | 0 <= i < |commits|
      ensures Inherited(GroupKey(commits[i].category))
              <==> options.categorize && Inherited(CommitCategory(fetchedCommits[i].message, rules))
    {
      InheritedGroupKey(commits[i].category);
    }
    forall i | 0 <= i < |pullRequests|
      ensures Inherited(GroupKey(pullRequests[i].category))
              <==> options.categorize && Inherited(PullRequestCategory(fetchedPullRequests[i], rules))
    {
      InheritedGroupKey(pullRequests[i].category);
    }
  }

  /** A rule named `constructor` makes the run fail only when a change is
      actually categorized under it: `fix: y` stays `"other"`, `feat: x` throws. */
  lemma InheritedRuleThrowsOnlyWhenUsed(options: Options, api: Api, previous: string, current: string, raw: RawCommit)
    requires options.categorize && options.includeCommits && !options.includePullRequests
    requires options.categories == Some([("constructor", ["feat"])])
    requires api.compare(previous, current) == Success([raw])
    requires raw.message == "fix: y" || raw.message == "feat: x"
    ensures ThrowsOnGrouping(options, api, previous, current) <==> raw.message == "feat: x"
  {
    var rules: Rules := [("constructor", ["feat"])];
    var fetchedCommits := FetchCommits(api.compare(previous, current), api.clock);
    assert fetchedCommits[0].message == raw.message;
    LowerProperties(raw.message);
    assert !HasUpper(raw.message) by {
      assert forall p :: 0 <= p < |raw.message| ==> !IsUpper(raw.message[p]);
    }
    if raw.message == "feat: x" {
      assert PrefixMatch(Lower(raw.message), "feat");
      CommitCategoryFirstMatch(raw.message, rules, 0);
      assert Inherited("constructor");
    } else {
      assert !PrefixMatch(Lower(raw.message), "feat") by {
        assert Lower(raw.message)[0] == 'f' && Lower(raw.message)[1] == 'i';
      }
      assert !AnyPrefix(Lower(raw.message), rules[0].1);
      CommitCategoryNoMatch(raw.message, rules);
      OtherIsNotInherited();
    }
  }

  /** The whole run: tag resolution errors abort it; otherwise the collected
      lists are grouped, which throws only on a change whose category is an
      inherited object name, and summarized. */
  method GenerateReleaseNotes(options: Options, api: Api) returns (r: Result<Notes>)
    ensures CurrentTag(options, api).Failure? ==> r == Failure(CurrentTag(options, api).error)
    ensures CurrentTag(options, api).Success? ==>
      var current := CurrentTag(options, api).value;
      var previous := PreviousTagOf(options, api, current);
      && (previous.Failure? ==> r == Failure(previous.error))
      && (previous.Success? && (!options.categorize || NoInheritedNames(ActiveRules(options.categories))) ==>
            r.Success?)
      && (previous.Success? ==> (r.Failure? <==> ThrowsOnGrouping(options, api, previous.value, current)))
      && (previous.Success? && r.Failure? ==>
            options.categorize && (r.error == CommitPushError || r.error == PullRequestPushError))
      && (previous.Success? && r.Success? ==>
            r.value.currentTag == current && r.value.previousTag == previous.value)
    ensures r.Success? ==>
      var n := r.value;
      && AsCollected(options, api, n.previousTag, n.currentTag, n.commits, n.pullRequests, n.contributors)
      && n.commitsByCategory == CommitsByCategory(n.commits)
      && n.pullRequestsByCategory == PullRequestsByCategory(n.pullRequests)
      && SumSizes(n.commitsByCategory) == |n.commits|
      && SumSizes(n.pullRequestsByCategory) == |n.pullRequests|
      && (!options.categorize ==> forall j :: 0 <= j < |n.commitsByCategory| ==> n.commitsByCategory[j].0 == Other)
      && (!options.categorize ==> forall j :: 0 <= j < |n.pullRequestsByCategory| ==> n.pullRequestsByCategory[j].0 == Other)
      && n.summary == GenerateSummary(n.commits, n.pullRequests, n.contributors)
      && ParseSummary(n.summary) == Some((|n.commits|, |n.pullRequests|, |n.contributors|))
  {
    var currentTag := CurrentTag(options, api);
    if currentTag.Failure? {
      return Failure(currentTag.error);
    }
    var current := currentTag.value;
    var previousTag := PreviousTagOf(options, api, current);
    if previousTag.Failure? {
      return Failure(previousTag.error);
    }
    var previous := previousTag.value;
    var commits, pullRequests, contributors := CollectChanges(options, api, previous, current);
    if !options.categorize || NoInheritedNames(ActiveRules(options.categories)) {
      CollectedGroupsSafely(options, api, previous, current, commits, pullRequests, contributors);
    }
    CollectedThrowsExactly(options, api, previous, current, commits, pullRequests, contributors);
    r := Assemble(current, previous, commits, pullRequests, contributors);
  }
}

=== FILE: render.dfy ===
/** What the renderer computes before handing over to the template engine:
    the changes grouped by category (`renderReleaseNotes`), and the one-line
    summary (`generateSummary`). */
module Render {
  import opened Wrappers
  import opened Seqs
  import opened Text
  import opened Model

  /** The group of a change: its category, or `"other"` when it has none (or
      an empty one), as `category || 'other'` decides. */
  function GroupKey(category: Option<string>): string {
    OrElse(category, Other)
  }

  /** Groups keyed by name, in insertion order: a JavaScript object of arrays. */
  type Groups<T> = seq<(string, seq<T>)>

  /** The items with key `k`, in input order. */
  function Select<T>(items: seq<T>, key: T -> string, k: string): (r: seq<T>)
    ensures forall i :: 0 <= i < |r| ==> key(r[i]) == k
    ensures k !in Map(items, key) ==> r == []
  {
    if |items| == 0 then []
    else
      var init := items[..|items| - 1];
      var last := items[|items| - 1];
      assert Map(items, key) == Map(init, key) + [key(last)];
      Select(init, key, k) + (if key(last) == k then [last] else [])
  }

  /** An item is selected for `k` exactly when it is one of the items and has key `k`. */
  lemma {:induction false} SelectMembers<T>(items: seq<T>, key: T -> string, k: string, x: T)
    ensures x in Select(items, key, k) <==> x in items && key(x) == k
  {
    if |items| > 0 {
      var init := items[..|items| - 1];
      var last := items[|items| - 1];
      assert items == init + [last];
      SelectMembers(init, key, k, x);
    }
  }

  /** One `push` onto the group named `k`, creating it at the end when new. */
  function Insert<T>(groups: Groups<T>, k: string, x: T): Groups<T> {
    if k in Firsts(groups) then
      var j := IndexOf(Firsts(groups), k);
      groups[j := (k, groups[j].1 + [x])]
    else groups + [(k, [x])]
  }

  /** `groups` is the stable group-by of `items`: group names in first-seen
      order, each group holding exactly the items with that name, in input order. */
  ghost predicate IsGrouping<T>(items: seq<T>, key: T -> string, groups: Groups<T>) {
    && Firsts(groups) == Distinct(Map(items, key))
    && forall j :: 0 <= j < |groups| ==> groups[j].1 == Select(items, key, groups[j].0)
  }

  /** The stable group-by that `renderReleaseNotes` builds with `push`. */
  function GroupBy<T>(items: seq<T>, key: T -> string): (r: Groups<T>)
    ensures Firsts(r) == Distinct(Map(items, key))
    ensures forall j :: 0 <= j < |r| ==> r[j].1 == Select(items, key, r[j].0)
  {
    if |items| == 0 then []
    else
      var init := items[..|items| - 1];
      var last := items[|items| - 1];
      assert items == init + [last];
      var g := GroupBy(init, key);
      InsertKeeps(init, last, key, g);
      Insert(g, key(last), last)
  }

  lemma MapSnoc<T>(init: seq<T>, last: T, key: T -> string)
    ensures Map(init + [last], key) == Map(init, key) + [key(last)]
  {
  }

  lemma SelectSnoc<T>(init: seq<T>, last: T, key: T -> string, k: string)
    ensures Select(init + [last], key, k) == Select(init, key, k) + (if key(last) == k then [last] else [])
  {
    assert (init + [last])[..|init|] == init;
  }

  /** One `push` of a further item keeps the group-by properties. */
  lemma InsertKeeps<T>(init: seq<T>, last: T, key: T -> string, g: Groups<T>)
    requires IsGrouping(init, key, g)
    ensures IsGrouping(init + [last], key, Insert(g, key(last), last))
  {
    MapSnoc(init, last, key);
    DistinctSnoc(Map(init, key), key(last));
    if key(last) in Firsts(g) {
      InsertIntoExisting(init, last, key, g);
    } else {
      InsertAsNew(init, last, key, g);
    }
  }

  lemma InsertIntoExisting<T>(init: seq<T>, last: T, key: T -> string, g: Groups<T>)
    requires IsGrouping(init, key, g)
    requires key(last) in Firsts(g)
    ensures Firsts(Insert(g, key(last), last)) == Firsts(g)
    ensures forall i :: 0 <= i < |g| ==>
      Insert(g, key(last), last)[i].1 == Select(init + [last], key, Insert(g, key(last), last)[i].0)
  {
    var k := key(last);
    var j := IndexOf(Firsts(g), k);
    var r := Insert(g, k, last);
    assert r == g[j := (k, g[j].1 + [last])];
    forall i | 0 <= i < |r|
      ensures r[i].1 == Select(init + [last], key, r[i].0)
    {
      SelectSnoc(init, last, key, r[i].0);
      if i != j {
        assert Firsts(g)[i] == g[i].0;
      }
    }
  }

  lemma InsertAsNew<T>(init: seq<T>, last: T, key: T -> string, g: Groups<T>)
    requires IsGrouping(init, key, g)
    requires key(last) !in Firsts(g)
    ensures Firsts(Insert(g, key(last), last)) == Firsts(g) + [key(last)]
    ensures forall i :: 0 <= i < |g| + 1 ==>
      Insert(g, key(last), last)[i].1 == Select(init + [last], key, Insert(g, key(last), last)[i].0)
  {
    var k := key(last);
    var r := Insert(g, k, last);
    assert r == g + [(k, [last])];
    forall i | 0 <= i < |r|
      ensures r[i].1 == Select(init + [last], key, r[i].0)
    {
      SelectSnoc(init, last, key, r[i].0);
      if i < |g| {
        assert Firsts(g)[i] == g[i].0;
      }
    }
  }

  function SumSizes<T>(groups: Groups<T>): nat {
    if |groups| == 0 then 0
    else SumSizes(groups[..|groups| - 1]) + |groups[|groups| - 1].1|
  }

  /** Adding one item to one group adds one to the total. */
  lemma {:induction false} SumSizesGrow<T>(groups: Groups<T>, j: nat, x: T)
    requires j < |groups|
    ensures SumSizes(groups[j := (groups[j].0, groups[j].1 + [x])]) == SumSizes(groups) + 1
  {
    var n := |groups| - 1;
    var g' := groups[j := (groups[j].0, groups[j].1 + [x])];
    if j < n {
      assert g'[..n] == groups[..n][j := (groups[j].0, groups[j].1 + [x])];
      SumSizesGrow(groups[..n], j, x);
    } else {
      assert g'[..n] == groups[..n];
    }
  }

  /** The group sizes add up to the number of items. */
  lemma {:induction false} GroupSizesSum<T>(items: seq<T>, key: T -> string)
    ensures SumSizes(GroupBy(items, key)) == |items|
  {
    if |items| > 0 {
      var init := items[..|items| - 1];
      var last := items[|items| - 1];
      var g := GroupBy(init, key);
      GroupSizesSum(init, key);
      var k := key(last);
      if k in Firsts(g) {
        var j := IndexOf(Firsts(g), k);
        assert g[j].0 == k;
        SumSizesGrow(g, j, last);
      } else {
        assert (g + [(k, [last])])[..|g|] == g;
      }
    }
  }

  /** Every item lands in the one group named by its key and in no other. */
  lemma GroupIsPartition<T>(items: seq<T>, key: T -> string, i: nat)
    requires i < |items|
    ensures key(items[i]) in Firsts(GroupBy(items, key))
    ensures NoDup(Firsts(GroupBy(items, key)))
    ensures forall j :: 0 <= j < |GroupBy(items, key)| ==>
      (items[i] in GroupBy(items, key)[j].1 <==> GroupBy(items, key)[j].0 == key(items[i]))
  {
    var r := GroupBy(items, key);
    assert Map(items, key)[i] == key(items[i]);
    forall j | 0 <= j < |r|
      ensures items[i] in r[j].1 <==> r[j].0 == key(items[i])
    {
      assert Firsts(r)[j] == r[j].0;
      SelectMembers(items, key, r[j].0, items[i]);
    }
  }

  /** Commits grouped by category. */
  function CommitsByCategory(commits: seq<Commit>): Groups<Commit> {
    GroupBy(commits, (c: Commit) => GroupKey(c.category))
  }

  /** Pull requests grouped by category. */
  function PullRequestsByCategory(pullRequests: seq<PullRequest>): Groups<PullRequest> {
    GroupBy(pullRequests, (p: PullRequest) => GroupKey(p.category))
  }

  /** The names every plain JavaScript object inherits from `Object.prototype`.
      Reading one of them on a fresh record gives a truthy value that is not
      an array. */
  const InheritedNames: seq<string> := [
    "constructor", "hasOwnProperty", "isPrototypeOf", "propertyIsEnumerable",
    "toLocaleString", "toString", "valueOf", "__defineGetter__",
    "__defineSetter__", "__lookupGetter__", "__lookupSetter__", "__proto__"
  ]

  predicate Inherited(name: string) {
    name in InheritedNames
  }

  /** The `TypeError` messages of the two grouping loops (in V8's wording) when
      `push` is called on an inherited, non-array value. */
  const CommitPushError: string := "commitsByCategory[category].push is not a function"
  const PullRequestPushError: string := "prsByCategory[category].push is not a function"

  /** The grouping loop as it runs on a plain record: an item whose key is an
      inherited name finds a value already there, skips creating its array,
      and its `push` throws `error`. Otherwise it is the stable group-by. */
  function GroupOrThrow<T>(items: seq<T>, key: T -> string, error: string): (r: Result<Groups<T>>)
    ensures r.Failure? <==> exists i :: 0 <= i < |items| && Inherited(key(items[i]))
    ensures r.Failure? ==> r.error == error
    ensures r.Success? ==> r.value == GroupBy(items, key)
  {
    if |items| == 0 then Success([])
    else
      var init := items[..|items| - 1];
      var last := items[|items| - 1];
      assert items == init + [last];
      assert forall i :: 0 <= i < |init| ==> init[i] == items[i];
      match GroupOrThrow(init, key, error)
      case Failure(e) => Failure(e)
      case Success(g) =>
        if Inherited(key(last)) then Failure(error) else Success(Insert(g, key(last), last))
  }

  /** Both groupings, commits first: the first `push` that throws ends the rendering. */
  function GroupChanges(commits: seq<Commit>, pullRequests: seq<PullRequest>)
    : (r: Result<(Groups<Commit>, Groups<PullRequest>)>)
    ensures r.Failure? <==>
      (exists i :: 0 <= i < |commits| && Inherited(GroupKey(commits[i].category))) ||
      (exists i :: 0 <= i < |pullRequests| && Inherited(GroupKey(pullRequests[i].category)))
    ensures (exists i :: 0 <= i < |commits| && Inherited(GroupKey(commits[i].category))) ==>
      r == Failure(CommitPushError)
    ensures r.Failure? ==> r.error == CommitPushError || r.error == PullRequestPushError
    ensures r.Success? ==> r.value == (CommitsByCategory(commits), PullRequestsByCategory(pullRequests))
  {
    match GroupOrThrow(commits, (c: Commit) => GroupKey(c.category), CommitPushError)
    case Failure(e) => Failure(e)
    case Success(byCommit) =>
      match GroupOrThrow(pullRequests, (p: PullRequest) => GroupKey(p.category), PullRequestPushError)
      case Failure(e) => Failure(e)
      case Success(byPullRequest) => Success((byCommit, byPullRequest))
  }

  /** `"other"` is not an inherited name, so unset or empty categories never throw. */
  lemma OtherIsNotInherited()
    ensures !Inherited(Other)
  {
    assert Other[0] == 'o';
    assert forall j :: 0 <= j < |InheritedNames| ==> InheritedNames[j] != Other;
  }

  const SummaryStart: string := "Generated release notes with "
  const SummaryCommits: string := " commits, "
  const SummaryPullRequests: string := " pull requests, and "
  const SummaryContributors: string := " contributors."

  /** The one-line summary of the three counts. */
  function GenerateSummary(commits: seq<Commit>, pullRequests: seq<PullRequest>, contributors: seq<string>): string {
    SummaryStart + (NatToString(|commits|) + (SummaryCommits + (NatToString(|pullRequests|)
      + (SummaryPullRequests + (NatToString(|contributors|) + SummaryContributors)))))
  }

  /** The fields `d0 sep0 d1 sep1 …`: each count printed, then its separator. */
  function Join(counts: seq<nat>, seps: seq<string>): string
    requires |counts| == |seps|
  {
    if |counts| == 0 then [] else NatToString(counts[0]) + (seps[0] + Join(counts[1..], seps[1..]))
  }

  /** Reads counts back, each a digit run followed by its separator, up to
      the end of `s`. */
  function ParseFields(s: string, seps: seq<string>): Option<seq<nat>>
    decreases |seps|
  {
    if |seps| == 0 then (if s == [] then Some([]) else None)
    else
      var (digits, rest) := SpanDigits(s);
      if digits == [] || !IsPrefix(seps[0], rest) then None
      else
        match ParseFields(rest[|seps[0]|..], seps[1..])
        case Some(values) => Some([ParseNat(digits)] + values)
        case None => None
  }

  /** Printed counts are read back when no separator starts with a digit. */
  lemma {:induction false} ParseFieldsJoin(counts: seq<nat>, seps: seq<string>)
    requires |counts| == |seps|
    requires forall i :: 0 <= i < |seps| ==> |seps[i]| > 0 && !IsDigit(seps[i][0])
    ensures ParseFields(Join(counts, seps), seps) == Some(counts)
  {
    if |counts| > 0 {
      var d := NatToString(counts[0]);
      var tail := Join(counts[1..], seps[1..]);
      var rest := seps[0] + tail;
      assert Join(counts, seps) == d + rest;
      SpanDigitsOf(d, rest);
      assert rest[..|seps[0]|] == seps[0];
      assert rest[|seps[0]|..] == tail;
      ParseFieldsJoin(counts[1..], seps[1..]);
      ParseNatToString(counts[0]);
      assert [counts[0]] + counts[1..] == counts;
    }
  }

  /** Reads the three counts back out of a summary line. */
  function ParseSummary(s: string): Option<(nat, nat, nat)> {
    if !IsPrefix(SummaryStart, s) then None
    else
      match ParseFields(s[|SummaryStart|..], SummarySeparators)
      case Some(values) => if |values| == 3 then Some((values[0], values[1], values[2])) else None
      case None => None
  }

  /** The summary's separators, in order. */
  const SummarySeparators: seq<string> := [SummaryCommits, SummaryPullRequests, SummaryContributors]

  /** Joining a leading count and separator onto the rest. */
  lemma JoinCons(n: nat, sep: string, counts: seq<nat>, seps: seq<string>)
    requires |counts| == |seps|
    ensures Join([n] + counts, [sep] + seps) == NatToString(n) + (sep + Join(counts, seps))
  {
    assert ([n] + counts)[1..] == counts && ([sep] + seps)[1..] == seps;
  }

  /** Three counts and their separators, joined. */
  lemma JoinThree(a: nat, b: nat, c: nat, s0: string, s1: string, s2: string)
    ensures Join([a, b, c], [s0, s1, s2])
      == NatToString(a) + (s0 + (NatToString(b) + (s1 + (NatToString(c) + s2))))
  {
    JoinCons(c, s2, [], []);
    assert [c] + [] == [c] && [s2] + [] == [s2];
    assert s2 + [] == s2;
    JoinCons(b, s1, [c], [s2]);
    assert [b] + [c] == [b, c] && [s1] + [s2] == [s1, s2];
    JoinCons(a, s0, [b, c], [s1, s2]);
    assert [a] + [b, c] == [a, b, c] && [s0] + [s1, s2] == [s0, s1, s2];
  }

  /** No separator is empty or starts with a digit. */
  lemma SeparatorsStartWithoutDigit()
    ensures forall i :: 0 <= i < |SummarySeparators| ==>
      |SummarySeparators[i]| > 0 && !IsDigit(SummarySeparators[i][0])
  {
    assert SummaryCommits[0] == ' ' && SummaryPullRequests[0] == ' ' && SummaryContributors[0] == ' ';
  }

  /** The summary reports exactly the number of commits, pull requests and
      contributors: reading it back gives the three counts. */
  lemma SummaryReportsCounts(commits: seq<Commit>, pullRequests: seq<PullRequest>, contributors: seq<string>)
    ensures ParseSummary(GenerateSummary(commits, pullRequests, contributors))
      == Some((|commits|, |pullRequests|, |contributors|))
  {
    var counts: seq<nat> := [|commits|, |pullRequests|, |contributors|];
    var body := Join(counts, SummarySeparators);
    var s := GenerateSummary(commits, pullRequests, contributors);
    JoinThree(|commits|, |pullRequests|, |contributors|,
              SummaryCommits, SummaryPullRequests, SummaryContributors);
    assert s == SummaryStart + body;
    assert s[..|SummaryStart|] == SummaryStart;
    assert s[|SummaryStart|..] == body;
    SeparatorsStartWithoutDigit();
    ParseFieldsJoin(counts, SummarySeparators);
  }
}

=== FILE: seqs.dfy ===
/** Sequence facts shared by the categorizer, the contributor extractor and the
    grouping stage: first occurrence, first-seen de-duplication, prefixes and
    substrings. */
module Seqs {

  /** No element occurs twice. */
  ghost predicate NoDup<T>(s: seq<T>) {
    forall a, b :: 0 <= a < b < |s| ==> s[a] != s[b]
  }

  /** `f` applied to every element, in order (`Array.prototype.map`): the one
      projection the other modules name their fields through. */
  function Map<T, U>(s: seq<T>, f: T -> U): (r: seq<U>)
    ensures |r| == |s| && forall i :: 0 <= i < |s| ==> r[i] == f(s[i])
  {
    seq(|s|, i requires 0 <= i < |s| => f(s[i]))
  }

  /** The first components of a sequence of pairs: the names of a keyed list. */
  function Firsts<K, V>(s: seq<(K, V)>): (r: seq<K>)
    ensures |r| == |s| && forall i :: 0 <= i < |s| ==> r[i] == s[i].0
  {
    Map(s, (p: (K, V)) => p.0)
  }

  /** `p` is a prefix of `s` (JavaScript `s.startsWith(p)`). */
  predicate IsPrefix<T(==)>(p: seq<T>, s: seq<T>) {
    |p| <= |s| && s[..|p|] == p
  }

  /** `k` occurs somewhere inside `s` (JavaScript `s.includes(k)`); the empty
      sequence occurs in every sequence. */
  predicate IsSubstring<T(==)>(k: seq<T>, s: seq<T>) {
    exists i :: 0 <= i <= |s| - |k| && IsPrefix(k, s[i..])
  }

  /** Position of the first occurrence of `x` in `s` (`Array.prototype.indexOf`). */
  function IndexOf<T(==)>(s: seq<T>, x: T): (r: nat)
    requires x in s
    ensures r < |s| && s[r] == x
    ensures x !in s[..r]
  {
    if s[0] == x then 0
    else
      assert x in s[1..];
      var r' := IndexOf(s[1..], x);
      assert s[..r' + 1] == [s[0]] + s[1..][..r'];
      r' + 1
  }

  /** The first occurrence is the only position holding `x` with no earlier `x`. */
  lemma IndexOfUnique<T>(s: seq<T>, x: T, r: nat)
    requires r < |s| && s[r] == x && x !in s[..r]
    ensures IndexOf(s, x) == r
  {
  }

  /** Appending elements does not move the first occurrence of an element already present. */
  lemma IndexOfPrefix<T>(s: seq<T>, t: seq<T>, x: T)
    requires x in s
    ensures x in s + t
    ensures IndexOf(s + t, x) == IndexOf(s, x)
  {
    var r := IndexOf(s, x);
    assert (s + t)[..r] == s[..r];
    IndexOfUnique(s + t, x, r);
  }

  /** The elements of `s` in first-seen order, each once: what
      `Array.from(new Set(s))` yields. */
  function Distinct<T(==,!new)>(s: seq<T>): (r: seq<T>)
    ensures NoDup(r)
    ensures forall x :: x in r <==> x in s
    ensures forall a, b :: 0 <= a < b < |r| ==> IndexOf(s, r[a]) < IndexOf(s, r[b])
  {
    if |s| == 0 then []
    else
      var init := s[..|s| - 1];
      var last := s[|s| - 1];
      assert s == init + [last];
      var d := Distinct(init);
      forall x | x in d
        ensures IndexOf(s, x) == IndexOf(init, x) < |init|
      {
        IndexOfPrefix(init, [last], x);
      }
      if last in d then d
      else
        IndexOfUnique(s, last, |init|);
        d + [last]
  }

  /** De-duplicating one more element either ignores it or appends it. */
  lemma DistinctSnoc<T(!new)>(s: seq<T>, x: T)
    ensures Distinct(s + [x]) == if x in Distinct(s) then Distinct(s) else Distinct(s) + [x]
  {
    assert (s + [x])[..|s|] == s;
  }
}

=== FILE: tags.dfy ===
/** Tag resolution (`getLatestTag`, `getPreviousTag`) and the tag reference
    looked up when dating a tag. The tag listings are inputs: the newest-first
    answer of the hosting API, or the error it raised. */
module Tags {
  import opened Wrappers
  import opened Seqs
  import opened Model

  /** Stands for "the last hundred commits" when there is no previous tag. */
  const HistoryFallback: string := "HEAD~100"

  const NoTagsMessage: string := "No tags found in the repository"
  const LatestTagFailure: string := "Failed to get latest tag: "
  const PreviousTagFailure: string := "Failed to get previous tag: "

  function TagNames(tags: seq<Tag>): seq<string> {
    Map(tags, (t: Tag) => t.name)
  }

  /** `findIndex` on names: the first position holding `name`, or -1. */
  function FindIndex(names: seq<string>, name: string): int {
    if name in names then IndexOf(names, name) else -1
  }

  /** The tag before `current` in a newest-first listing. */
  function PreviousTagName(tags: seq<Tag>, current: string): (r: string)
    ensures |tags| <= 1 ==> r == HistoryFallback
    ensures |tags| > 1 && current !in TagNames(tags) ==> r == tags[0].name
    ensures |tags| > 1 && current in TagNames(tags) && IndexOf(TagNames(tags), current) + 1 < |tags| ==>
      r == tags[IndexOf(TagNames(tags), current) + 1].name
    ensures |tags| > 1 && current in TagNames(tags) && IndexOf(TagNames(tags), current) == |tags| - 1 ==>
      r == HistoryFallback
    ensures r == HistoryFallback || r in TagNames(tags)
  {
    if |tags| <= 1 then HistoryFallback
    else
      var i := FindIndex(TagNames(tags), current);
      var p := if i == -1 then 0 else i + 1;
      if p < |tags| then
        assert TagNames(tags)[p] == tags[p].name;
        tags[p].name
      else HistoryFallback
  }

  /** The newest tag, from a listing of at most one entry; an empty listing
      and a failing listing are both errors, re-worded the same way. */
  function LatestTag(listing: Result<seq<Tag>>): (r: Result<string>)
    ensures listing.Failure? ==> r == Failure(LatestTagFailure + listing.error)
    ensures listing.Success? && |listing.value| == 0 ==> r == Failure(LatestTagFailure + NoTagsMessage)
    ensures listing.Success? && |listing.value| > 0 ==> r == Success(listing.value[0].name)
    ensures r.Failure? ==> IsPrefix(LatestTagFailure, r.error)
  {
    match listing
    case Failure(e) => Failure(LatestTagFailure + e)
    case Success(tags) =>
      if |tags| == 0 then Failure(LatestTagFailure + NoTagsMessage)
      else Success(tags[0].name)
  }

  /** The previous tag from a listing of the ten newest tags. */
  function PreviousTag(listing: Result<seq<Tag>>, current: string): (r: Result<string>)
    ensures listing.Failure? <==> r.Failure?
    ensures r.Failure? ==> r.error == PreviousTagFailure + listing.error
    ensures listing.Success? ==> r == Success(PreviousTagName(listing.value, current))
  {
    match listing
    case Failure(e) => Failure(PreviousTagFailure + e)
    case Success(tags) => Success(PreviousTagName(tags, current))
  }

  /** A tag given by the caller (and not empty) is used verbatim; otherwise it
      is resolved from the listing. */
  function GivenOr(given: Option<string>, resolved: Result<string>): (r: Result<string>)
    ensures given.Some? && given.value != "" ==> r == Success(given.value)
    ensures (given.None? || given.value == "") ==> r == resolved
  {
    if given.Some? && given.value != "" then Success(given.value) else resolved
  }

  const RefsTagsPrefix: string := "refs/tags/"

  /** The reference `tags/<name>` looked up to date a tag; one leading
      `refs/tags/` is dropped first. */
  function TagRef(name: string): string {
    "tags/" + (if IsPrefix(RefsTagsPrefix, name) then name[|RefsTagsPrefix|..] else name)
  }

  /** A plain tag name and its fully qualified form resolve to the same
      reference; only one leading `refs/tags/` is removed. */
  lemma TagRefStripsOnce(name: string)
    ensures !IsPrefix(RefsTagsPrefix, name) ==> TagRef(name) == "tags/" + name
    ensures TagRef(RefsTagsPrefix + name) == "tags/" + name
  {
    assert (RefsTagsPrefix + name)[..|RefsTagsPrefix|] == RefsTagsPrefix;
    assert (RefsTagsPrefix + name)[|RefsTagsPrefix|..] == name;
  }

  /** A one-tag listing gives the fallback, not an error. */
  lemma SingleTagFallsBack(tag: Tag, current: string)
    ensures PreviousTag(Success([tag]), current) == Success(HistoryFallback)
  {
  }
}

=== FILE: text.dfy ===
/** Character-level text helpers: lower-casing and the decimal rendering of
    counts used by the summary line. */
module Text {

  predicate IsUpper(c: char) {
    'A' <= c <= 'Z'
  }

  /** ASCII lower-casing of one character. */
  function LowerChar(c: char): char {
    if IsUpper(c) then (c as int + 32) as char else c
  }

  /** `String.prototype.toLowerCase`, restricted to ASCII letters. */
  function Lower(s: string): string {
    seq(|s|, i requires 0 <= i < |s| => LowerChar(s[i]))
  }

  predicate HasUpper(s: string) {
    exists i :: 0 <= i < |s| && IsUpper(s[i])
  }

  /** Lower-casing keeps the length, leaves no upper-case letter behind and
      does nothing to text that is already lower-case. */
  lemma LowerProperties(s: string)
    ensures |Lower(s)| == |s|
    ensures !HasUpper(Lower(s))
    ensures Lower(Lower(s)) == Lower(s)
    ensures !HasUpper(s) ==> Lower(s) == s
  {
  }

  predicate IsDigit(c: char) {
    '0' <= c <= '9'
  }

  predicate AllDigits(s: string) {
    forall i :: 0 <= i < |s| ==> IsDigit(s[i])
  }

  function DigitChar(d: nat): char
    requires d < 10
  {
    ('0' as int + d) as char
  }

  function DigitValue(c: char): nat
    requires IsDigit(c)
  {
    c as int - '0' as int
  }

  /** Decimal rendering of a count without leading zeros, as JavaScript's
      template literals print a non-negative integer. */
  function NatToString(n: nat): (r: string)
    ensures |r| > 0 && AllDigits(r)
    ensures r[0] == '0' ==> n == 0
  {
    if n < 10 then [DigitChar(n)]
    else NatToString(n / 10) + [DigitChar(n % 10)]
  }

  /** Reads a run of decimal digits back as a number. */
  function ParseNat(s: string): nat
    requires AllDigits(s)
  {
    if |s| == 0 then 0
    else ParseNat(s[..|s| - 1]) * 10 + DigitValue(s[|s| - 1])
  }

  /** Reading back a printed count yields the count. */
  lemma {:induction false} ParseNatToString(n: nat)
    ensures ParseNat(NatToString(n)) == n
  {
    var r := NatToString(n);
    if n >= 10 {
      ParseNatToString(n / 10);
      assert r[..|r| - 1] == NatToString(n / 10);
    }
  }

  /** Splits `s` into its longest leading run of digits and the rest. */
  function SpanDigits(s: string): (r: (string, string))
    ensures AllDigits(r.0) && r.0 + r.1 == s
    ensures |r.1| > 0 ==> !IsDigit(r.1[0])
  {
    if |s| == 0 || !IsDigit(s[0]) then ([], s)
    else
      var (d, rest) := SpanDigits(s[1..]);
      ([s[0]] + d, rest)
  }

  /** The digit run in front of text that does not start with a digit is
      recognised exactly. */
  lemma {:induction false} SpanDigitsOf(d: string, rest: string)
    requires AllDigits(d)
    requires |rest| > 0 ==> !IsDigit(rest[0])
    ensures SpanDigits(d + rest) == (d, rest)
  {
    if |d| > 0 {
      assert (d + rest)[1..] == d[1..] + rest;
      SpanDigitsOf(d[1..], rest);
      assert IsDigit((d + rest)[0]);
      assert [d[0]] + d[1..] == d;
    } else {
      assert d + rest == rest;
    }
  }
}

=== FILE: wrappers.dfy ===
/** Failure-carrying datatypes used to model JavaScript's `undefined`/`null`
    values and thrown errors. */
module Wrappers {

  /** A value that may be absent (`undefined` or `null` in the source). */
  datatype Option<+T> = None | Some(value: T) {

    /** Returns the value, or `default` when absent. */
    function GetOr(default: T): T {
      match this
      case Some(v) => v
      case None => default
    }
  }

  /** The outcome of an operation that may throw: the value, or the error message. */
  datatype Result<+R> = Success(value: R) | Failure(error: string)
}
